=== FILE: README.md ===
# Question/answer dataset editor — record store model

This project models the record store behind a small FastAPI editor for a
question/answer training dataset (`data_generator.py`). The editor keeps an
ordered list of questions in a text file, one per line. It keeps the answers
in a JSONL file, one record per line, and each record is a `messages` pair:
question first, answer second. The two files are joined only by exact
equality of question text.

The model is purely functional:

- `Text` gives Python's `str.isspace` character class, the line boundaries
  of `str.splitlines`, and `Trim` for `str.strip`.
- `QuestionFile` loads and saves the question list (`load_questions`,
  `save_questions`). A missing file is the empty text.
- `AnswerFile` models the answer file as a sequence of lines. A line is
  `Blank`, `Undecodable`, or a decoded `Record` that keeps its `messages`
  list (if any) and the `content` (if any) of each message. The module
  also defines the lookups (`get_question_answer`, `has_answer`). A missing
  file is the empty sequence. The three readers in the code take a line
  differently, and each is modelled as written:
  - the loader (`load_existing_answers`) skips records with fewer than two
    messages and fails on a missing `content` in either of the first two;
  - the upsert (`update_or_append_record`) indexes a record by its first
    message alone;
  - the delete filter (`update_question`, `delete_question`) reads the first
    message with `.get`, and fails only on undecodable text or an empty
    `messages` list.
- `Session` turns the request handlers into functions from a `Store` to a
  `Step`. The `Store` holds the in-memory question list and the answer file.
  The `Step` holds the new store and the redirect (or server error) that the
  handler answers with. `Session` also covers the navigation index
  arithmetic and the data behind the sidebar and manage views.

Quirks of the code are modelled as written:

- There are two notions of "answered". The sidebar, the manage view and
  `has_answer` test key membership. The editor and the rename migration test
  truthiness. A stored empty answer is therefore answered in one place and
  unanswered in the other.
- Renaming a question with a non-empty answer to its own text deletes that
  answer, once the delete filter gets through the file. A stored empty
  answer is left in place, because the migration tests truthiness.
- Renaming does not reject an empty text. The empty question is saved and
  then disappears when the list is reloaded.
- The loader's `try` encloses the whole read loop. The first line it fails
  on ends the load, and everything after it is ignored.
- Upsert replaces the *last* record for the question. A line its reader
  fails on aborts the read loop, so upsert discards every record, before
  and after that line, and writes the new record alone.
- A record whose first message has `content` and whose second lacks it is
  kept by the upsert but stops the loader. An answer upserted after such a record is written, yet
  reads back as "" (`UpsertHiddenBehindHalfRecord`).
- A record with two or more messages whose first lacks `content` stops the
  loader and makes the upsert reset the file, yet passes the delete filter.
  With a single message it is skipped by the loader and kept, unindexed,
  by the upsert. A record with an empty `messages` list passes the
  loaders but makes the delete filter raise. That can happen in a rename
  too, after the upserted file was written.

## Model

| member | source | states |
|---|---|---|
| Text.IsSpace | data_generator.py:18 | the characters `str.strip` removes: those for which `str.isspace` holds |
| Text.IsLineBreak | data_generator.py:18 | the line boundaries `str.splitlines` splits at |
| Text.Trim | data_generator.py:18 | `strip` leaves no whitespace at either end, never lengthens, and changes nothing in a string already trimmed, so it is idempotent |
| Text.TrimIdempotent | data_generator.py:18 | trimming twice is trimming once |
| Text.TrimEmpty | data_generator.py:18 | `strip` yields "" exactly for whitespace-only input |
| Text.TrimKeepsNoBreak | data_generator.py:18 | trimming a single line leaves a single line |
| QuestionFile.SplitLines | data_generator.py:18 | every split line is free of line boundaries, and there are no more lines than characters |
| QuestionFile.SaveQuestions | data_generator.py:21-25 | the written text is empty exactly for the empty list and otherwise ends in "\n"; `SplitSaved` is its inverse |
| QuestionFile.Clean | data_generator.py:18 | the filtered list is no longer than the lines, and holds only non-empty trimmed texts, single lines when the input lines are |
| QuestionFile.LoadQuestions | data_generator.py:16-19 | every loaded question is non-empty, already trimmed and free of line boundaries; `LoadLine` fixes their order |
| QuestionFile.LoadLine | data_generator.py:16-19 | the loaded list follows the file's lines in order: a first line contributes its trimmed text, unless empty, ahead of the rest |
| QuestionFile.LoadLastLine | data_generator.py:18 | a last line without a boundary is read like any other line |
| QuestionFile.SplitSaved | data_generator.py:21-25 | splitting the written file into lines gives back the list, when no question contains a line boundary |
| QuestionFile.SplitFirstLine | data_generator.py:25 | a single line written with its "\n" is split off again as the first line |
| QuestionFile.CleanKeepsQuestions | data_generator.py:18 | a list of non-empty trimmed questions passes the load filter unchanged |
| QuestionFile.LoadSaved | data_generator.py:16-25 | saving then loading yields the list trimmed and without its blank entries |
| QuestionFile.SaveLoadRoundTrip | data_generator.py:16-25 | saving then loading returns the same list when every question is non-empty, trimmed and a single line |
| QuestionFile.ReloadIsStable | data_generator.py:16-25 | a loaded list comes back unchanged from a save and a reload |
| QuestionFile.CleanDropsBlank | data_generator.py:18 | a whitespace-only entry makes the reloaded list shorter |
| AnswerFile.LoadRead | data_generator.py:35-39 | the loader skips blank lines and records with fewer than two messages, fails on undecodable text or a missing `content` in either message, and otherwise reads the pair |
| AnswerFile.Pair | data_generator.py:75-80 | the record the upsert writes: a two-message list whose first content is the question and whose second is the answer |
| AnswerFile.IndexFails | data_generator.py:64-69 | the upsert's reader raises on undecodable text, or on a record with at least two messages whose first lacks `content`; a missing second `content` does not matter to it |
| AnswerFile.Keys | data_generator.py:67-69 | the upsert indexes a record under `q` when it has at least two messages and the first one's content is `q` |
| AnswerFile.FilterFails | data_generator.py:203 | the delete filter raises on undecodable text, and on an empty `messages` list, whose first entry does not exist; a missing `messages` key defaults to `[{}]` |
| AnswerFile.Lead | data_generator.py:258 | what the delete filter compares with the key: the first message's `content` read with `.get`, or nothing when that entry has no content or `messages` is missing |
| AnswerFile.ReadersAgree | data_generator.py:35-69 | on a line the loader gets through, the upsert raises nothing and indexes the record under `q` exactly when the loader reads it as a record for `q` |
| AnswerFile.Readable | data_generator.py:30-41 | the loader reads a prefix of the file on which it fails nowhere, and it stops only at a line it fails on |
| AnswerFile.LoadAnswers | data_generator.py:27-42 | a missing (empty) answer file yields the empty map |
| AnswerFile.GetAnswer | data_generator.py:44-47 | the stored answer for a key, "" for an absent question |
| AnswerFile.AnswerMap | data_generator.py:33-39 | each read pair overwrites the entry for its question; `AnswerMapLastWins` states the resulting map |
| AnswerFile.HasAnswer | data_generator.py:49-51 | `has_answer` is key membership in the loaded map, so a stored empty answer counts |
| AnswerFile.AnswerMapLastWins | data_generator.py:33-39 | a question is a key exactly when some read line is a record for it, and its value is the answer of the last such record |
| AnswerFile.LoadStopsAtMalformed | data_generator.py:31-41 | lines after the first line the loader fails on are ignored, and the entries before it are kept |
| AnswerFile.NoLeadNoAnswer | data_generator.py:44-51 | a file with no record whose first message is the question has no answer for it, and the lookup gives "" |
| AnswerFile.Records | data_generator.py:63-66 | the rewrite keeps no blank line and never lengthens; when the upsert can read the file these are all records, and a file already in written form is kept whole |
| AnswerFile.RecordsConcat | data_generator.py:63-66 | dropping blank lines keeps the order and multiplicity of the other lines: it distributes over concatenation |
| AnswerFile.RecordsKeepAnswers | data_generator.py:63-66 | dropping blank lines changes no answer |
| AnswerFile.LastKey | data_generator.py:67-69 | the index the upsert stores is that of the last record it indexes under the question, or none when there is no such record |
| AnswerFile.Upsert | data_generator.py:53-91 | the rewritten file holds records only, at least the new one; the upsert can read it again, and so can the loader when it could read the original |
| AnswerFile.UpsertShape | data_generator.py:82-86 | when the upsert can read the file, a question with an indexed record keeps the record count and has only its last such record replaced; otherwise exactly one record is appended |
| AnswerFile.UpsertResetsOnMalformed | data_generator.py:70-72 | with a line anywhere that the upsert fails on, the result is the single new record |
| AnswerFile.ReplaceLastAsk | data_generator.py:84 | replacing the last record for a question changes that question's entry and no other |
| AnswerFile.AppendAnswer | data_generator.py:86 | unfolds `AnswerMap` one step: appending a record sets that question's entry and no other |
| AnswerFile.UpsertAnswers | data_generator.py:53-91 | when the loader can read the file or the upsert resets it, the loaded map afterwards is the old map (empty after a reset) with the question mapped to the trimmed response |
| AnswerFile.UpsertRecordsAnswers | data_generator.py:82-86 | on a file the loader reads whole, the rewritten records map the question to the trimmed response and keep all other entries |
| AnswerFile.UpsertThenGet | data_generator.py:75-86 | when the loader can read the file or the upsert resets it, looking up the question afterwards gives the trimmed response, and `has_answer` holds |
| AnswerFile.UpsertHiddenBehindHalfRecord | data_generator.py:53-91 | a record whose first message has `content` and whose second lacks it is kept by the upsert but stops the loader, so an answer appended after it reads back as "" |
| AnswerFile.UpsertPosition | data_generator.py:82-86 | the new record sits where no later record is for the same question |
| AnswerFile.UpsertAtLast | data_generator.py:82-84 | upserting into a written file whose last record for the question is already the new record leaves the file as it is |
| AnswerFile.UpsertIdempotent | data_generator.py:53-91 | repeating the same upsert changes nothing |
| AnswerFile.UpsertFilterable | data_generator.py:195-204 | the delete filter gets through the upsert's output exactly when the upsert reset the file or the filter gets through the original file |
| AnswerFile.UpsertWellFormed | data_generator.py:53-91 | when every reader gets through the file, or the upsert resets it, every reader gets through the upsert's output |
| AnswerFile.Without | data_generator.py:200-204 | the filter keeps exactly the records whose first message content is not the key |
| AnswerFile.WithoutMembers | data_generator.py:203-204 | a record survives the filter exactly when its first message content is not the key |
| AnswerFile.WithoutSnoc | data_generator.py:256-259 | unfolds `Without` one step: filtering one more record appends it exactly when its first message content is not the key |
| AnswerFile.DropKey | data_generator.py:197-208 | the filter fails exactly on an undecodable line or an empty `messages` list; otherwise the rewritten file holds exactly the non-blank lines whose first message content is not the key |
| AnswerFile.RecordsMembers | data_generator.py:255-259 | a line survives the rewrite exactly when it is not blank |
| AnswerFile.WithoutConcat | data_generator.py:253-263 | the filter keeps the relative order of records: it distributes over concatenation |
| AnswerFile.WithoutAnswers | data_generator.py:256-259 | filtering out a key removes exactly that key from the answer map |
| AnswerFile.DropKeyAnswers | data_generator.py:251-263 | on a file every reader gets through, delete-by-key removes exactly that key from the loaded answers, and the lookup then gives "" |
| Session.Resolve | data_generator.py:132-137 | `/edit/{i}` shows position max(i, 0), or the done page exactly when i is at or past the end (or negative on an empty list) |
| Session.SkipQuestion | data_generator.py:220-223 | skipping from a valid position reaches the done page exactly from the last position; from at or past the end it stays on the done page; from a negative index it lands where `/edit/0` does |
| Session.EditPage | data_generator.py:132-143 | the editor shows the resolved position's question and stored answer, and calls it answered exactly when that answer is non-empty |
| Session.UpdateAnswer | data_generator.py:175-179 | for a valid index, when the loader can read the file or the upsert resets it, the loaded map becomes the old one (empty after a reset) with that question mapped to the trimmed response; an invalid index changes nothing; the list is untouched |
| Session.PostAnswerLegacy | data_generator.py:213-218 | the same update as `update_answer`, redirected to the next position |
| Session.AddQuestion | data_generator.py:298-304 | blank input leaves everything unchanged; otherwise the list grows by one, keeps its old entries, and ends with the trimmed, non-empty input |
| Session.Renamed | data_generator.py:185-188 | renaming changes only position `i`, to the trimmed text, and keeps the length |
| Session.EditQuestionLegacy | data_generator.py:237-242 | the legacy rename changes only the list, and only for a valid index |
| Session.UpdateQuestion | data_generator.py:181-210 | an out-of-range index changes nothing; otherwise the list is renamed at `i`; the reply is the redirect to `i`, or a server error exactly when there is a non-empty answer to move, the upsert keeps the file, and the filter then fails on it |
| Session.DeleteQuestion | data_generator.py:244-268 | an out-of-range index changes nothing and goes to the manage view; otherwise the list loses position `i`, the reply is a server error exactly when the filter fails on the answer file, and the redirect index is `min(i, len-1)`, or 0 on an empty list, so it always resolves to a question or to the done page |
| Session.Preview | data_generator.py:107 | a preview is at most 53 characters: the question itself up to 50 characters, otherwise its first 50 and "..." |
| Session.CountAnswered | data_generator.py:99-104 | the answered count never exceeds the number of questions |
| Session.SidebarData | data_generator.py:95-124 | one item per position with index, text, preview and key-membership status, and the answered count, which is at most the total |
| Session.CountStep | data_generator.py:102-104 | unfolds `CountAnswered` one step: each position adds one to the count exactly when its text is a key |
| Session.ManageItems | data_generator.py:270-288 | one item per position, answered exactly when `has_answer` holds for its text |
| Session.UpdateQuestionMigrates | data_generator.py:192-208 | unfolds the answered branch of `UpdateQuestion`: with a non-empty old answer, the answer file after a rename is the upserted file filtered for the old text, or the upserted file itself when that filter raises, which is exactly when the reply is not a redirect |
| Session.RenameMigratesAnswer | data_generator.py:191-208 | renaming a question with a non-empty answer to a different text redirects and maps the new text to that answer (trimmed), keeping every other entry, when every reader gets through the file (or losing them all when the upsert resets it); after any redirect no record for the old text is left and it has no answer |
| Session.MoveAnswer | data_generator.py:195-208 | on a file every reader gets through, or one the upsert resets, upserting under the new text and filtering out the old one succeeds, and the loaded map loses the old key and maps the new text to the trimmed answer |
| Session.RenameToSameTextDropsAnswer | data_generator.py:195-204 | renaming a question with a non-empty answer to its own text leaves the list as it was and, when the filter succeeds, deletes the answer |
| Session.RenameUnansweredKeepsFile | data_generator.py:192-193 | with an empty or missing answer the answer file is untouched, so a stored empty answer stays under the old text |
| Session.RenameToBlankVanishesOnReload | data_generator.py:185-189 | a blank rename stores "" at `i`, and the saved list reloads shorter |
| Session.DeleteCascade | data_generator.py:251-263 | after a successful delete no record for the deleted text survives and its lookup gives ""; on a file every reader gets through, the delete succeeds and removes exactly that entry |
| Session.DeleteKeepsKeylessRecord | data_generator.py:256-259 | a record with two messages whose first lacks `content` stops the loader, yet a delete keeps it and redirects normally |
| Session.DeleteFailsOnEmptyMessages | data_generator.py:253-259 | a record with an empty `messages` list is skipped by the loaders, yet a delete fails on it after the list was changed |
| Session.AnsweredNotions | data_generator.py:139-143 | the editor's "answered" implies the manage view's, and they differ exactly when the stored answer is empty |
| Session.EmptyAnswerExample | data_generator.py:143 | a stored empty answer is answered in the manage view, unanswered in the editor, and left behind by a rename |
| Session.CountAnsweredExtremes | data_generator.py:99-104 | the count equals the total exactly when every position is answered, and is zero exactly when none is |
| Session.CountIsAnsweredPositions | data_generator.py:101-104 | the count is the number of answered positions, so a text listed twice counts twice |

## Left out

- HTTP routing, redirects as responses, and the Jinja templates are left out. Only the redirect target of each handler is kept, as a `View`. The legacy GET redirects and `/` are plain redirects to `/edit/{i}`, and `Resolve` covers where they land.
- The editor page's label strings (status class and text, button text) are left out. They depend only on the `answered` flag that `EditPage` computes.
- Filesystem I/O (`exists`, `mkdir`, `open`, `read_text`) is left out. Files are values, and a missing file is the empty text or the empty sequence of lines. So a missing answer file and an empty one are not told apart.
- JSON text is left out. A line is abstracted to what the readers look at: whether it is blank, whether it decodes, and then the `messages` list and each message's `content`. Other keys and the `role` fields are not modelled; rewriting keeps them, and no reader reads them.
- Decoded records outside that shape are not modelled. Examples are a JSON number, string, boolean, null or array as the whole record, a `messages` value that is not a list (a dict, say), a message that is not an object, and a non-string `content`. On them the readers variously skip the line, stop, reset, or raise `TypeError`, `AttributeError` or `KeyError`. `Line` assumes every decoded record is an object whose `messages`, when present, is a list of objects with string contents.
- UpsertAnswers: says nothing about the loaded map when the upsert can read the file but the loader cannot, because the loader then stops at a record the upsert kept. `UpsertHiddenBehindHalfRecord` shows such a case.
- UpsertThenGet: covers the same files as `UpsertAnswers`, for the same reason.
- UpdateAnswer: its map clause covers the same files as `UpsertAnswers`, for the same reason.
- RenameMigratesAnswer: states the map after a rename only when every reader gets through the file, or when the upsert resets it. Otherwise the filter may fail, or it may remove a record the loader used to stop on.
- `progress_percentage` is left out because it is floating-point arithmetic with `round`.
- `download_jsonl` and `healthz` are left out. They pass the file or the list length through unchanged.
- Concurrency is left out: one process and one writer are assumed, as in the source.
- The process-wide list is loaded once at import time (line 93). The model does not keep that global. The caller builds the `Store`, for instance from `LoadQuestions`.
- Save is not shown as its own step after each list change, because the questions file is always `SaveQuestions` of the in-memory list.

=== FILE: answer_file.dfy ===
/** The answer record file (data_generator.py lines 27-91 and the filters at
    lines 197-208 and 253-263): one JSON record per line, each record a
    `messages` list whose first entry's content is the question and whose
    second entry's content is the answer. JSON text itself is abstracted
    away: a line is blank, undecodable, or a decoded object, and an object
    keeps only what the readers look at. A missing file reads as the empty
    sequence of lines. */
module AnswerFile {
  import opened Text

  datatype Option<T> = None | Some(value: T)

  /** An entry of a record's `messages` list. Only its `content` is read;
      `None` is an entry without that key. */
  datatype Message = Message(content: Option<string>)

  /** One line of the answer file. */
  datatype Line =
      /** Whitespace only: every reader skips it and rewrites drop it. */
    | Blank
      /** Text on which `json.loads` raises a decode error. */
    | Undecodable
      /** A decoded object; `messages` is `None` when it has no such key. */
    | Record(messages: Option<seq<Message>>)

  /** The record this tool writes for a question and its answer. */
  function Pair(q: string, a: string): Line {
    Record(Some([Message(Some(q)), Message(Some(a))]))
  }

  /** The record holds at least two messages: the test on lines 36 and 67. */
  predicate Paired(l: Line) {
    l.Record? && l.messages.Some? && |l.messages.value| >= 2
  }

  // ---------------------------------------------------------------------
  // How each reader takes one line

  /** What a reader makes of one line. */
  datatype Read = Skip | Fail | Entry(question: string, answer: string)

  /** `load_existing_answers` (lines 35-39): a record with fewer than two
      messages is skipped, and one whose first or second message lacks
      `content` raises a key error. */
  function LoadRead(l: Line): Read {
    match l
    case Blank => Skip
    case Undecodable => Fail
    case Record(None) => Skip
    case Record(Some(ms)) =>
      if |ms| < 2 then Skip
      else if ms[0].content.None? || ms[1].content.None? then Fail
      else Entry(ms[0].content.value, ms[1].content.value)
  }

  /** The line is a question/answer record for `q` as the loader reads it. */
  predicate Asks(l: Line, q: string) {
    LoadRead(l).Entry? && LoadRead(l).question == q
  }

  /** `update_or_append_record` (lines 64-69) reads only the first
      message's `content` to index a record: it raises when that one is
      missing, but not when the second one is. */
  predicate IndexFails(l: Line) {
    l.Undecodable? || (Paired(l) && l.messages.value[0].content.None?)
  }

  /** The upsert indexes the record under `q`. */
  predicate Keys(l: Line, q: string) {
    Paired(l) && l.messages.value[0].content == Some(q)
  }

  /** The delete filter (lines 203 and 258) defaults a missing `messages`
      to `[{}]`, so it raises only on an empty list, besides undecodable
      text. */
  predicate FilterFails(l: Line) {
    l.Undecodable? || l == Record(Some([]))
  }

  /** What the delete filter compares with the key: the first message's
      `content` read with `.get`, so a missing one is `None`. */
  function Lead(l: Line): Option<string> {
    match l
    case Record(Some(ms)) => if |ms| > 0 then ms[0].content else None
    case _ => None
  }

  predicate Loadable(file: seq<Line>) {
    forall k :: 0 <= k < |file| ==> !LoadRead(file[k]).Fail?
  }

  predicate Indexable(file: seq<Line>) {
    forall k :: 0 <= k < |file| ==> !IndexFails(file[k])
  }

  predicate Filterable(file: seq<Line>) {
    forall k :: 0 <= k < |file| ==> !FilterFails(file[k])
  }

  /** Every reader gets through every line. */
  predicate WellFormed(file: seq<Line>) {
    Loadable(file) && Filterable(file)
  }

  /** A file as this tool writes it: every line is a record. */
  predicate Canonical(file: seq<Line>) {
    forall k :: 0 <= k < |file| ==> file[k].Record?
  }

  /** The readers agree where the loader does not fail: a line the loader
      gets through raises nothing in the upsert either, and the upsert
      indexes it under `q` exactly when the loader reads it as a record for
      `q`. Each question/answer record also leads with its question. */
  lemma ReadersAgree(l: Line, q: string)
    ensures !LoadRead(l).Fail? ==> !IndexFails(l)
    ensures !LoadRead(l).Fail? ==> (Keys(l, q) <==> Asks(l, q))
    ensures Asks(l, q) ==> Keys(l, q) && Lead(l) == Some(q) && !FilterFails(l)
  {
  }

  lemma LoadableIndexable(file: seq<Line>)
    requires Loadable(file)
    ensures Indexable(file)
  {
    forall k | 0 <= k < |file| ensures !IndexFails(file[k]) {
      ReadersAgree(file[k], []);
    }
  }

  // ---------------------------------------------------------------------
  // Reading: load_existing_answers, get_question_answer, has_answer

  /** The lines `load_existing_answers` gets through: its `try` encloses the
      whole loop, so the first line it fails on ends the load. */
  function Readable(file: seq<Line>): (r: seq<Line>)
    ensures r <= file
    ensures Loadable(r)
    ensures |r| < |file| ==> LoadRead(file[|r|]).Fail?
  {
    if file == [] || LoadRead(file[0]).Fail? then [] else [file[0]] + Readable(file[1..])
  }

  /** The map built from some lines, each question/answer record in turn
      overwriting the entry for its question. */
  function AnswerMap(lines: seq<Line>): map<string, string>
  {
    if lines == [] then map[]
    else
      var m := AnswerMap(lines[..|lines| - 1]);
      match LoadRead(lines[|lines| - 1])
      case Entry(q, a) => m[q := a]
      case _ => m
  }

  /** `load_existing_answers`. */
  function LoadAnswers(file: seq<Line>): (answers: map<string, string>)
    ensures file == [] ==> answers == map[]
  {
    AnswerMap(Readable(file))
  }

  /** `get_question_answer`: the stored answer, or "" when there is none. */
  function GetAnswer(file: seq<Line>, q: string): (a: string)
    ensures q in LoadAnswers(file) ==> a == LoadAnswers(file)[q]
    ensures q !in LoadAnswers(file) ==> a == []
  {
    var answers := LoadAnswers(file);
    if q in answers then answers[q] else []
  }

  /** `has_answer`: key membership, so a stored empty answer counts. */
  predicate HasAnswer(file: seq<Line>, q: string) {
    q in LoadAnswers(file)
  }

  /** A question has an entry exactly when some read line is a record for
      it, and the entry is the answer of the last such record. */
  lemma {:induction false} AnswerMapLastWins(lines: seq<Line>, q: string)
    ensures q in AnswerMap(lines) <==> exists j :: 0 <= j < |lines| && Asks(lines[j], q)
    ensures q in AnswerMap(lines) ==>
      exists j :: 0 <= j < |lines| && LoadRead(lines[j]) == Entry(q, AnswerMap(lines)[q])
                  && forall j' :: j < j' < |lines| ==> !Asks(lines[j'], q)
    decreases |lines|
  {
    if lines != [] {
      var n := |lines| - 1;
      var init := lines[..n];
      AnswerMapLastWins(init, q);
      if Asks(lines[n], q) {
        assert LoadRead(lines[n]) == Entry(q, AnswerMap(lines)[q]);
      } else {
        assert q in AnswerMap(lines) <==> q in AnswerMap(init);
        if q in AnswerMap(lines) {
          assert AnswerMap(lines)[q] == AnswerMap(init)[q];
        }
        assert (exists j :: 0 <= j < |lines| && Asks(lines[j], q)) ==> exists j :: 0 <= j < n && Asks(init[j], q);
      }
    }
  }

  /** On a file the loader gets through, it reads every line. */
  lemma ReadableWellFormed(file: seq<Line>)
    requires Loadable(file)
    ensures Readable(file) == file
  {
  }

  /** Lines after the first one the loader fails on are ignored, and the
      entries read before it are kept. */
  lemma LoadStopsAtMalformed(before: seq<Line>, bad: Line, after: seq<Line>)
    requires Loadable(before)
    requires LoadRead(bad).Fail?
    ensures LoadAnswers(before + [bad] + after) == AnswerMap(before)
  {
    ReadableStopsAtMalformed(before, bad, after);
  }

  lemma {:induction false} ReadableStopsAtMalformed(before: seq<Line>, bad: Line, after: seq<Line>)
    requires Loadable(before)
    requires LoadRead(bad).Fail?
    ensures Readable(before + [bad] + after) == before
    decreases |before|
  {
    if before != [] {
      ReadableStopsAtMalformed(before[1..], bad, after);
      assert (before + [bad] + after)[1..] == before[1..] + [bad] + after;
    }
  }

  /** A file without any record led by `q` has no answer for `q`. */
  lemma NoLeadNoAnswer(file: seq<Line>, q: string)
    requires forall x :: x in file ==> Lead(x) != Some(q)
    ensures !HasAnswer(file, q)
    ensures GetAnswer(file, q) == []
  {
    var r := Readable(file);
    AnswerMapLastWins(r, q);
    if q in AnswerMap(r) {
      var j :| 0 <= j < |r| && Asks(r[j], q);
      assert r[j] == file[j];
      ReadersAgree(r[j], q);
    }
  }

  // ---------------------------------------------------------------------
  // Rewriting: update_or_append_record

  /** The records a rewrite keeps: the non-blank lines, in order. */
  function Records(file: seq<Line>): (recs: seq<Line>)
    ensures |recs| <= |file|
    ensures forall k :: 0 <= k < |recs| ==> !recs[k].Blank?
    ensures Indexable(file) ==> Canonical(recs)
    ensures Canonical(file) ==> recs == file
  {
    if file == [] then []
    else
      var init := Records(file[..|file| - 1]);
      var last := file[|file| - 1];
      assert file == file[..|file| - 1] + [last];
      if last.Blank? then init else init + [last]
  }

  /** A line survives the rewrite exactly when it is not blank. */
  lemma {:induction false} RecordsMembers(file: seq<Line>)
    ensures forall x :: x in Records(file) <==> x in file && !x.Blank?
    decreases |file|
  {
    if file != [] {
      var n := |file| - 1;
      RecordsMembers(file[..n]);
      assert file == file[..n] + [file[n]];
    }
  }

  /** Dropping blank lines keeps the order and multiplicity of the other
      lines: it distributes over concatenation. */
  lemma {:induction false} RecordsConcat(a: seq<Line>, b: seq<Line>)
    ensures Records(a + b) == Records(a) + Records(b)
    decreases |b|
  {
    if b == [] {
      assert a + b == a;
    } else {
      var n := |b| - 1;
      RecordsConcat(a, b[..n]);
      assert (a + b)[..|a + b| - 1] == a + b[..n];
      assert (a + b)[|a + b| - 1] == b[n];
    }
  }

  /** Dropping the blank lines loses no answer. */
  lemma {:induction false} RecordsKeepAnswers(file: seq<Line>)
    ensures AnswerMap(Records(file)) == AnswerMap(file)
    decreases |file|
  {
    if file != [] {
      var n := |file| - 1;
      RecordsKeepAnswers(file[..n]);
      var init := Records(file[..n]);
      if !file[n].Blank? {
        assert (init + [file[n]])[..|init|] == init;
      }
    }
  }

  /** The index `update_or_append_record` replaces: the last record it
      indexes under `q` (line 69 overwrites the stored index), or -1 when
      there is none. */
  function LastKey(recs: seq<Line>, q: string): (k: int)
    ensures -1 <= k < |recs|
    ensures k >= 0 ==> Keys(recs[k], q)
    ensures forall j :: k < j < |recs| ==> !Keys(recs[j], q)
  {
    if recs == [] then -1
    else if Keys(recs[|recs| - 1], q) then |recs| - 1
    else LastKey(recs[..|recs| - 1], q)
  }

  /** `update_or_append_record(q, response)`: the rewritten file. A line the
      upsert's reader fails on resets the record list to empty before the
      new record is added. */
  function Upsert(file: seq<Line>, q: string, response: string): (r: seq<Line>)
    ensures Canonical(r) && Indexable(r)
    ensures Loadable(file) ==> Loadable(r)
    ensures |r| > 0
  {
    var entry := Pair(q, Trim(response));
    if !Indexable(file) then [entry]
    else
      var recs := Records(file);
      RecordsMembers(file);
      var k := LastKey(recs, q);
      if k >= 0 then recs[k := entry] else recs + [entry]
  }

  /** On a file the upsert can index, a question that has a record keeps
      the record count and has only its last record replaced; otherwise
      exactly one record is appended. */
  lemma UpsertShape(file: seq<Line>, q: string, response: string)
    requires Indexable(file)
    ensures var recs := Records(file);
            var r := Upsert(file, q, response);
            && ((exists j :: 0 <= j < |recs| && Keys(recs[j], q)) ==>
                  exists k :: 0 <= k < |recs| && Keys(recs[k], q)
                              && (forall j :: k < j < |recs| ==> !Keys(recs[j], q))
                              && |r| == |recs|
                              && r == recs[k := Pair(q, Trim(response))])
            && ((forall j :: 0 <= j < |recs| ==> !Keys(recs[j], q)) ==>
                  r == recs + [Pair(q, Trim(response))])
  {
    var recs := Records(file);
    var k := LastKey(recs, q);
    if exists j :: 0 <= j < |recs| && Keys(recs[j], q) {
      var j :| 0 <= j < |recs| && Keys(recs[j], q);
      assert k >= j;
    }
  }

  /** A line the upsert's reader fails on drops every prior record: the
      result is the new record alone. */
  lemma UpsertResetsOnMalformed(before: seq<Line>, bad: Line, after: seq<Line>, q: string, response: string)
    requires IndexFails(bad)
    ensures Upsert(before + [bad] + after, q, response) == [Pair(q, Trim(response))]
  {
    var file := before + [bad] + after;
    assert file[|before|] == bad;
  }

  /** Replacing the last record for `q` by another record for `q` changes
      the entry for `q` and nothing else. */
  lemma {:induction false} ReplaceLastAsk(s: seq<Line>, k: int, q: string, a: string)
    requires 0 <= k < |s| && Asks(s[k], q)
    requires forall j :: k < j < |s| ==> !Asks(s[j], q)
    ensures AnswerMap(s[k := Pair(q, a)]) == AnswerMap(s)[q := a]
    decreases |s|
  {
    var n := |s| - 1;
    var t := s[k := Pair(q, a)];
    if k == n {
      assert t[..n] == s[..n];
    } else {
      ReplaceLastAsk(s[..n], k, q, a);
      assert t[..n] == s[..n][k := Pair(q, a)];
      assert t[n] == s[n];
    }
  }

  lemma AppendAnswer(s: seq<Line>, q: string, a: string)
    ensures AnswerMap(s + [Pair(q, a)]) == AnswerMap(s)[q := a]
  {
    assert (s + [Pair(q, a)])[..|s|] == s;
  }

  /** After an upsert the loaded map is the old one (or the empty one, when
      the upsert reset the file) with `q` mapped to the trimmed response.
      A file that the upsert indexes but the loader stops in is not
      covered: see `UpsertHiddenBehindHalfRecord`. */
  lemma UpsertAnswers(file: seq<Line>, q: string, response: string)
    ensures Loadable(file) || !Indexable(file) ==>
              LoadAnswers(Upsert(file, q, response))
              == (if Loadable(file) then LoadAnswers(file) else map[])[q := Trim(response)]
  {
    var r := Upsert(file, q, response);
    if Loadable(file) {
      ReadableWellFormed(r);
      LoadableIndexable(file);
      UpsertRecordsAnswers(file, q, response);
      ReadableWellFormed(file);
      RecordsKeepAnswers(file);
    } else if !Indexable(file) {
      ReadableWellFormed(r);
      assert r == [] + [Pair(q, Trim(response))];
      AppendAnswer([], q, Trim(response));
    }
  }

  lemma UpsertRecordsAnswers(file: seq<Line>, q: string, response: string)
    requires Loadable(file) && Indexable(file)
    ensures AnswerMap(Upsert(file, q, response)) == AnswerMap(Records(file))[q := Trim(response)]
  {
    var recs := Records(file);
    var k := LastKey(recs, q);
    RecordsMembers(file);
    assert forall j :: 0 <= j < |recs| ==> !LoadRead(recs[j]).Fail? by {
      forall j | 0 <= j < |recs| ensures !LoadRead(recs[j]).Fail? {
        assert recs[j] in recs;
      }
    }
    forall j | 0 <= j < |recs| ensures Keys(recs[j], q) <==> Asks(recs[j], q) {
      ReadersAgree(recs[j], q);
    }
    if k >= 0 {
      assert Upsert(file, q, response) == recs[k := Pair(q, Trim(response))];
      ReplaceLastAsk(recs, k, q, Trim(response));
    } else {
      assert Upsert(file, q, response) == recs + [Pair(q, Trim(response))];
      AppendAnswer(recs, q, Trim(response));
    }
  }

  /** After an upsert, looking the question up yields the trimmed response,
      unless the file holds a record the loader stops on but the upsert
      keeps. */
  lemma UpsertThenGet(file: seq<Line>, q: string, response: string)
    ensures Loadable(file) || !Indexable(file) ==>
              GetAnswer(Upsert(file, q, response), q) == Trim(response)
              && HasAnswer(Upsert(file, q, response), q)
  {
    UpsertAnswers(file, q, response);
  }

  /** A record whose second message lacks `content` is indexed by the
      upsert but stops the loader: an answer appended after it is written
      and yet reads back as "". */
  lemma UpsertHiddenBehindHalfRecord()
    ensures var half := Record(Some([Message(Some("x")), Message(None)]));
            var r := Upsert([half], "y", "a");
            && r == [half, Pair("y", Trim("a"))]
            && !HasAnswer(r, "y")
            && GetAnswer(r, "y") == []
  {
    var half := Record(Some([Message(Some("x")), Message(None)]));
    assert Records([half]) == [half] by {
      assert [half][..0] == [];
    }
    var r := Upsert([half], "y", "a");
    assert Readable(r) == [];
  }

  /** Repeating the same upsert changes nothing. */
  lemma UpsertIdempotent(file: seq<Line>, q: string, response: string)
    ensures Upsert(Upsert(file, q, response), q, response) == Upsert(file, q, response)
  {
    var k := UpsertPosition(file, q, response);
    UpsertAtLast(Upsert(file, q, response), k, q, response);
  }

  /** Upserting into a file in written form whose last record indexed
      under `q` is already the new record leaves the file as it is. */
  lemma UpsertAtLast(r: seq<Line>, k: nat, q: string, response: string)
    requires Canonical(r) && Indexable(r)
    requires k < |r| && r[k] == Pair(q, Trim(response))
    requires forall j :: k < j < |r| ==> !Keys(r[j], q)
    ensures Upsert(r, q, response) == r
  {
    assert Records(r) == r;
    assert LastKey(r, q) == k;
    assert r[k := Pair(q, Trim(response))] == r;
  }

  /** Where the new record sits after an upsert: no later record is
      indexed under the same question. */
  lemma UpsertPosition(file: seq<Line>, q: string, response: string) returns (k: nat)
    ensures var r := Upsert(file, q, response);
            && k < |r| && r[k] == Pair(q, Trim(response))
            && forall j :: k < j < |r| ==> !Keys(r[j], q)
  {
    if Indexable(file) {
      var recs := Records(file);
      var k0 := LastKey(recs, q);
      k := if k0 >= 0 then k0 else |recs|;
    } else {
      k := 0;
    }
  }

  /** The upsert's output can be filtered exactly when the upsert reset the
      file or the file could be filtered: the record it replaces has two
      messages, so it is never the one the filter fails on. */
  lemma UpsertFilterable(file: seq<Line>, q: string, response: string)
    ensures Filterable(Upsert(file, q, response)) <==> !Indexable(file) || Filterable(file)
  {
    if Indexable(file) {
      var r := Upsert(file, q, response);
      var recs := Records(file);
      var k := LastKey(recs, q);
      RecordsMembers(file);
      if Filterable(file) {
        forall j | 0 <= j < |recs| ensures !FilterFails(recs[j]) {
          assert recs[j] in recs;
        }
      } else {
        var b :| 0 <= b < |file| && FilterFails(file[b]);
        assert file[b] in recs;
        var j :| 0 <= j < |recs| && recs[j] == file[b];
        assert r[j] == file[b];
      }
    }
  }

  /** When every reader gets through the file, or the upsert resets it,
      every reader gets through the upsert's output as well. */
  lemma UpsertWellFormed(file: seq<Line>, q: string, response: string)
    requires WellFormed(file) || !Indexable(file)
    ensures WellFormed(Upsert(file, q, response))
  {
    UpsertFilterable(file, q, response);
    if !Indexable(file) {
      assert Upsert(file, q, response) == [Pair(q, Trim(response))];
    }
  }

  // ---------------------------------------------------------------------
  // Deleting by key: the filters of update_question and delete_question

  /** The records whose first message's content is not `key`, in order. */
  function Without(recs: seq<Line>, key: string): (r: seq<Line>)
    ensures Canonical(recs) ==> Canonical(r)
    ensures |r| <= |recs|
  {
    if recs == [] then []
    else
      var init := Without(recs[..|recs| - 1], key);
      var last := recs[|recs| - 1];
      if Lead(last) == Some(key) then init else init + [last]
  }

  /** A record survives the filter exactly when its first message's content
      is not `key`. */
  lemma {:induction false} WithoutMembers(recs: seq<Line>, key: string)
    ensures forall x :: x in Without(recs, key) <==> x in recs && Lead(x) != Some(key)
    decreases |recs|
  {
    if recs != [] {
      var n := |recs| - 1;
      WithoutMembers(recs[..n], key);
      assert recs == recs[..n] + [recs[n]];
    }
  }

  /** The filter that rewrites the file without any record for `key`.
      `None` stands for the uncaught error an undecodable line or an empty
      `messages` list raises; the file is then not rewritten. */
  function DropKey(file: seq<Line>, key: string): (r: Option<seq<Line>>)
    ensures r.None? <==> !Filterable(file)
    ensures r.Some? ==> Canonical(r.value)
    ensures r.Some? ==> forall x :: x in r.value <==> x in file && !x.Blank? && Lead(x) != Some(key)
  {
    if !Filterable(file) then None
    else
      var recs := Records(file);
      RecordsMembers(file);
      WithoutMembers(recs, key);
      Some(Without(recs, key))
  }

  /** Filtering one more record appends it exactly when it is kept. */
  lemma WithoutSnoc(s: seq<Line>, x: Line, key: string)
    ensures Without(s + [x], key) == Without(s, key) + (if Lead(x) == Some(key) then [] else [x])
  {
    assert (s + [x])[..|s|] == s;
  }

  /** The filter keeps the relative order of records: it distributes over
      concatenation. */
  lemma {:induction false} WithoutConcat(a: seq<Line>, b: seq<Line>, key: string)
    ensures Without(a + b, key) == Without(a, key) + Without(b, key)
    decreases |b|
  {
    if b == [] {
      assert a + b == a;
    } else {
      var n := |b| - 1;
      var last := b[n];
      var tail := if Lead(last) == Some(key) then [] else [last];
      WithoutConcat(a, b[..n], key);
      assert a + b == (a + b[..n]) + [last];
      WithoutSnoc(a + b[..n], last, key);
      assert b == b[..n] + [last];
      WithoutSnoc(b[..n], last, key);
      assert (Without(a, key) + Without(b[..n], key)) + tail
          == Without(a, key) + (Without(b[..n], key) + tail);
    }
  }

  /** Filtering out `key` removes exactly the entry for `key` from the map. */
  lemma {:induction false} WithoutAnswers(recs: seq<Line>, key: string)
    ensures AnswerMap(Without(recs, key)) == AnswerMap(recs) - {key}
    decreases |recs|
  {
    if recs != [] {
      var n := |recs| - 1;
      var init := Without(recs[..n], key);
      WithoutAnswers(recs[..n], key);
      if Lead(recs[n]) != Some(key) {
        assert (init + [recs[n]])[..|init|] == init;
      } else if LoadRead(recs[n]).Entry? {
        ReadersAgree(recs[n], LoadRead(recs[n]).question);
      }
    }
  }

  /** Deleting by key from a file every reader gets through removes exactly
      that key from the loaded map. */
  lemma DropKeyAnswers(file: seq<Line>, key: string)
    requires WellFormed(file)
    ensures DropKey(file, key).Some?
    ensures LoadAnswers(DropKey(file, key).value) == LoadAnswers(file) - {key}
    ensures GetAnswer(DropKey(file, key).value, key) == []
  {
    var r := DropKey(file, key).value;
    assert Loadable(r) by {
      forall j | 0 <= j < |r| ensures !LoadRead(r[j]).Fail? {
        assert r[j] in r;
      }
    }
    ReadableWellFormed(file);
    ReadableWellFormed(r);
    RecordsKeepAnswers(file);
    WithoutAnswers(Records(file), key);
  }
}

=== FILE: question_file.dfy ===
/** The question list file (`load_questions` and `save_questions`,
    data_generator.py lines 16-25): plain text, one question per line.
    A missing file reads as the empty text. */
module QuestionFile {
  import opened Text

  /** Index of the first line boundary in `s`, or `|s|` when there is none. */
  function LineEnd(s: string): (k: nat)
    ensures k <= |s|
    ensures forall i :: 0 <= i < k ==> !IsLineBreak(s[i])
    ensures k < |s| ==> IsLineBreak(s[k])
    decreases |s|
  {
    if |s| == 0 || IsLineBreak(s[0]) then 0 else 1 + LineEnd(s[1..])
  }

  /** Python's `text.splitlines()`: every boundary ends a line, "\r\n"
      counts as one boundary, and a final line without a boundary is kept
      when it is not empty. */
  function SplitLines(text: string): (lines: seq<string>)
    ensures forall l :: l in lines ==> NoBreak(l)
    ensures |lines| <= |text|
    decreases |text|
  {
    if |text| == 0 then []
    else
      var k := LineEnd(text);
      if k == |text| then [text]
      else
        var next := if text[k] == '\r' && k + 1 < |text| && text[k + 1] == '\n' then k + 2 else k + 1;
        [text[..k]] + SplitLines(text[next..])
  }

  /** The text `save_questions` writes: each question followed by "\n". */
  function SaveQuestions(questions: seq<string>): (text: string)
    ensures text == [] <==> questions == []
    ensures text != [] ==> text[|text| - 1] == '\n'
    ensures |text| >= |questions|
  {
    if questions == [] then [] else questions[0] + "\n" + SaveQuestions(questions[1..])
  }

  /** The questions read from some lines: each line trimmed, and those left
      empty dropped, in the order of the lines. */
  function Clean(lines: seq<string>): (qs: seq<string>)
    ensures |qs| <= |lines|
    ensures forall q :: q in qs ==> q != [] && Trimmed(q)
    ensures (forall l :: l in lines ==> NoBreak(l)) ==> forall q :: q in qs ==> NoBreak(q)
  {
    if lines == [] then []
    else
      var q := Trim(lines[0]);
      TrimKeepsNoBreak(lines[0]);
      (if q == [] then [] else [q]) + Clean(lines[1..])
  }

  /** `load_questions`: every question it returns is non-empty, already
      trimmed and a single line. */
  function LoadQuestions(text: string): (qs: seq<string>)
    ensures forall q :: q in qs ==> q != [] && Trimmed(q) && NoBreak(q)
  {
    Clean(SplitLines(text))
  }

  /** Loading reads the file line by line, in order: a first line ended by
      "\n" contributes its trimmed text, unless that is empty, ahead of the
      questions of the rest of the file. */
  lemma LoadLine(l: string, rest: string)
    requires NoBreak(l)
    ensures LoadQuestions(l + "\n" + rest)
            == (if Trim(l) == [] then [] else [Trim(l)]) + LoadQuestions(rest)
  {
    SplitFirstLine(l, rest);
    assert ([l] + SplitLines(rest))[1..] == SplitLines(rest);
  }

  /** A last line without a line boundary is read like any other. */
  lemma LoadLastLine(l: string)
    requires NoBreak(l)
    ensures LoadQuestions(l) == (if Trim(l) == [] then [] else [Trim(l)])
  {
    if l != [] {
      assert LineEnd(l) == |l|;
      assert SplitLines(l) == [l];
      assert Clean([l]) == (if Trim(l) == [] then [] else [Trim(l)]) + Clean([]);
    }
  }

  /** Splitting a saved list gives back the list, provided no question
      spans lines. */
  lemma {:induction false} SplitSaved(qs: seq<string>)
    requires forall q :: q in qs ==> NoBreak(q)
    ensures SplitLines(SaveQuestions(qs)) == qs
  {
    if qs != [] {
      var q := qs[0];
      var rest := SaveQuestions(qs[1..]);
      assert q in qs;
      SplitFirstLine(q, rest);
      assert forall p :: p in qs[1..] ==> p in qs;
      SplitSaved(qs[1..]);
      assert qs == [q] + qs[1..];
    }
  }

  /** A single line followed by "\n" is split off as the first line. */
  lemma SplitFirstLine(q: string, rest: string)
    requires NoBreak(q)
    ensures SplitLines(q + "\n" + rest) == [q] + SplitLines(rest)
  {
    var text := q + "\n" + rest;
    assert IsLineBreak(text[|q|]);
    var k := LineEnd(text);
    assert k == |q|;
    assert text[..k] == q;
    assert text[k + 1..] == rest;
  }

  /** Lines that are already clean questions are kept as they are. */
  lemma {:induction false} CleanKeepsQuestions(qs: seq<string>)
    requires forall q :: q in qs ==> q != [] && Trimmed(q)
    ensures Clean(qs) == qs
  {
    if qs != [] {
      var q := qs[0];
      assert q in qs;
      assert Trim(q) == q;
      assert Clean(qs) == [q] + Clean(qs[1..]);
      assert forall p :: p in qs[1..] ==> p in qs;
      CleanKeepsQuestions(qs[1..]);
      assert qs == [q] + qs[1..];
    }
  }

  /** Loading what was saved yields the saved list, trimmed and without the
      blank entries. */
  lemma LoadSaved(qs: seq<string>)
    requires forall q :: q in qs ==> NoBreak(q)
    ensures LoadQuestions(SaveQuestions(qs)) == Clean(qs)
  {
    SplitSaved(qs);
  }

  /** Saving then loading returns the same list whenever every question is
      non-empty, trimmed and a single line. */
  lemma SaveLoadRoundTrip(qs: seq<string>)
    requires forall q :: q in qs ==> q != [] && Trimmed(q) && NoBreak(q)
    ensures LoadQuestions(SaveQuestions(qs)) == qs
  {
    LoadSaved(qs);
    CleanKeepsQuestions(qs);
  }

  /** A loaded list survives a save and a reload unchanged. */
  lemma ReloadIsStable(text: string)
    ensures LoadQuestions(SaveQuestions(LoadQuestions(text))) == LoadQuestions(text)
  {
    SaveLoadRoundTrip(LoadQuestions(text));
  }

  /** A whitespace-only entry does not come back from a save and reload. */
  lemma {:induction false} CleanDropsBlank(lines: seq<string>, i: int)
    requires 0 <= i < |lines| && AllSpace(lines[i])
    ensures |Clean(lines)| < |lines|
  {
    if i > 0 {
      CleanDropsBlank(lines[1..], i - 1);
    } else {
      TrimEmpty(lines[0]);
    }
  }
}

=== FILE: session.dfy ===
/** The request handlers of data_generator.py with the HTTP plumbing taken
    away. The process-wide question list (line 93) becomes an explicit
    `Store`, which each handler takes and returns together with the redirect
    it answers with. The questions file is rewritten from the list after
    every change (see `QuestionFile.SaveQuestions`). */
module Session {
  import opened Text
  import opened QuestionFile
  import opened AnswerFile

  /** The in-memory question list and the answer file. */
  datatype Store = Store(questions: seq<string>, answers: seq<Line>)

  /** Where a handler redirects: `/edit/{index}` or `/manage`. */
  datatype View = EditAt(index: int) | ManageList

  /** A redirect, or the server error an uncaught exception produces. */
  datatype Reply = Redirect(to: View) | ServerError

  /** A handler's effect: the state afterwards and its reply. */
  datatype Step = Step(after: Store, reply: Reply)

  predicate InRange(s: Store, i: int) {
    0 <= i < |s.questions|
  }

  function Min(a: int, b: int): int {
    if a <= b then a else b
  }

  // ---------------------------------------------------------------------
  // Navigation: edit_question_and_answer, skip_question

  /** What `/edit/{i}` shows over a list of `total` questions. */
  datatype Target = Question(index: nat) | Finished

  /** A negative index redirects to 0; an index at or past the end shows the
      "done" page. */
  function Resolve(i: int, total: nat): (t: Target)
    ensures t.Question? ==> t.index < total && t.index == (if i < 0 then 0 else i)
    ensures t.Finished? <==> (i >= total || (i < 0 && total == 0))
    decreases if i < 0 then 1 else 0
  {
    if i < 0 then Resolve(0, total)
    else if i >= total then Finished
    else Question(i)
  }

  /** `skip_question`: always on to the next position. */
  function SkipQuestion(i: int): (r: Reply)
    ensures r.Redirect? && r.to.EditAt?
    ensures forall total: nat :: 0 <= i < total ==>
      (Resolve(r.to.index, total).Finished? <==> i == total - 1)
    ensures forall total: nat :: 0 <= total <= i ==> Resolve(r.to.index, total).Finished?
    ensures i < 0 ==> forall total: nat :: Resolve(r.to.index, total) == Resolve(0, total)
  {
    Redirect(EditAt(i + 1))
  }

  /** The editor page of `/edit/{i}`. */
  datatype Page =
    | AllDone
    | Editing(index: nat, question: string, existing: string, answered: bool)

  /** `edit_question_and_answer`: the editor judges "answered" by the
      truthiness of the stored answer, so an empty answer reads as not
      answered. */
  function EditPage(s: Store, i: int): (p: Page)
    ensures p.AllDone? <==> Resolve(i, |s.questions|).Finished?
    ensures p.Editing? ==> && p.index == Resolve(i, |s.questions|).index
                           && p.question == s.questions[p.index]
                           && p.existing == GetAnswer(s.answers, p.question)
                           && (p.answered <==> p.existing != [])
  {
    match Resolve(i, |s.questions|)
    case Finished => AllDone
    case Question(k) =>
      var q := s.questions[k];
      var existing := GetAnswer(s.answers, q);
      Editing(k, q, existing, existing != [])
  }

  // ---------------------------------------------------------------------
  // Answer submission: update_answer, post_answer_legacy

  /** `update_answer`: for a valid index, upsert the trimmed response under
      that position's question; the list itself is untouched. Every other
      entry is kept, or all are lost when the upsert resets the file. */
  function UpdateAnswer(s: Store, i: int, response: string): (r: Step)
    ensures r.reply == Redirect(EditAt(i))
    ensures r.after.questions == s.questions
    ensures !InRange(s, i) ==> r.after == s
    ensures InRange(s, i) && (Loadable(s.answers) || !Indexable(s.answers)) ==>
      && LoadAnswers(r.after.answers)
         == (if Loadable(s.answers) then LoadAnswers(s.answers) else map[])[s.questions[i] := Trim(response)]
      && GetAnswer(r.after.answers, s.questions[i]) == Trim(response)
  {
    if InRange(s, i) then
      UpsertAnswers(s.answers, s.questions[i], response);
      Step(Store(s.questions, Upsert(s.answers, s.questions[i], response)), Redirect(EditAt(i)))
    else
      Step(s, Redirect(EditAt(i)))
  }

  /** `post_answer_legacy`: the same update, then on to the next position. */
  function PostAnswerLegacy(s: Store, i: int, response: string): (r: Step)
    ensures r.after == UpdateAnswer(s, i, response).after
    ensures r.reply == Redirect(EditAt(i + 1))
  {
    Step(UpdateAnswer(s, i, response).after, Redirect(EditAt(i + 1)))
  }

  // ---------------------------------------------------------------------
  // Question list changes: add_question, post_edit_question_legacy,
  // update_question, delete_question

  /** `add_question`: a blank or whitespace-only text changes nothing;
      otherwise the trimmed text is appended. */
  function AddQuestion(s: Store, text: string): (r: Step)
    ensures r.reply == Redirect(ManageList)
    ensures r.after.answers == s.answers
    ensures AllSpace(text) ==> r.after == s
    ensures !AllSpace(text) ==>
      && |r.after.questions| == |s.questions| + 1
      && r.after.questions[..|s.questions|] == s.questions
      && var added := r.after.questions[|s.questions|];
         added == Trim(text) && added != [] && Trimmed(added)
  {
    var q := Trim(text);
    TrimEmpty(text);
    if q == [] then Step(s, Redirect(ManageList))
    else Step(Store(s.questions + [q], s.answers), Redirect(ManageList))
  }

  /** The list after the text at position `i` is replaced by `text` trimmed;
      the trimmed text is not checked for being empty. */
  function Renamed(questions: seq<string>, i: int, text: string): (r: seq<string>)
    requires 0 <= i < |questions|
    ensures |r| == |questions|
    ensures r[i] == Trim(text)
    ensures forall j :: 0 <= j < |questions| && j != i ==> r[j] == questions[j]
  {
    questions[i := Trim(text)]
  }

  /** `post_edit_question_legacy`: renames without touching the answers. */
  function EditQuestionLegacy(s: Store, i: int, text: string): (r: Step)
    ensures r.reply == Redirect(EditAt(i))
    ensures r.after.answers == s.answers
    ensures !InRange(s, i) ==> r.after == s
    ensures InRange(s, i) ==> r.after.questions == Renamed(s.questions, i, text)
  {
    if InRange(s, i) then Step(Store(Renamed(s.questions, i, text), s.answers), Redirect(EditAt(i)))
    else Step(s, Redirect(EditAt(i)))
  }

  /** `update_question`: renames, and when the old text had a non-empty
      answer, upserts it under the new text and then rewrites the file
      without any record for the old text. That filter raises on a record
      with an empty `messages` list, which the upsert keeps, after the
      upserted file was already written. */
  function UpdateQuestion(s: Store, i: int, text: string): (r: Step)
    ensures r.reply == Redirect(EditAt(i)) || r.reply == ServerError
    ensures r.reply == ServerError <==>
      && InRange(s, i)
      && GetAnswer(s.answers, s.questions[i]) != []
      && Indexable(s.answers) && !Filterable(s.answers)
    ensures !InRange(s, i) ==> r.after == s
    ensures InRange(s, i) ==> r.after.questions == Renamed(s.questions, i, text)
  {
    if !InRange(s, i) then Step(s, Redirect(EditAt(i)))
    else
      var was := s.questions[i];
      var questions := Renamed(s.questions, i, text);
      var existing := GetAnswer(s.answers, was);
      if existing == [] then Step(Store(questions, s.answers), Redirect(EditAt(i)))
      else
        var moved := Upsert(s.answers, Trim(text), existing);
        UpsertFilterable(s.answers, Trim(text), existing);
        match DropKey(moved, was)
        case None => Step(Store(questions, moved), ServerError)
        case Some(kept) => Step(Store(questions, kept), Redirect(EditAt(i)))
  }

  /** `delete_question`: removes position `i`, rewrites the answer file
      without any record for its text, and redirects to the same position,
      or the new last one, or 0 when the list is empty. An undecodable line
      or an empty `messages` list makes the filter raise after the list was
      already changed. */
  function DeleteQuestion(s: Store, i: int): (r: Step)
    ensures !InRange(s, i) ==> r == Step(s, Redirect(ManageList))
    ensures InRange(s, i) ==> r.after.questions == s.questions[..i] + s.questions[i + 1..]
    ensures InRange(s, i) ==> (r.reply == ServerError <==> !Filterable(s.answers))
    ensures InRange(s, i) && r.reply == ServerError ==> r.after.answers == s.answers
    ensures InRange(s, i) && r.reply.Redirect? ==>
      var n := |r.after.questions|;
      && r.reply.to.EditAt?
      && r.reply.to.index == (if i < n then i else if n > 0 then n - 1 else 0)
      && (n > 0 ==> Resolve(r.reply.to.index, n) == Question(r.reply.to.index))
      && (n == 0 ==> Resolve(r.reply.to.index, n) == Finished)
  {
    if !InRange(s, i) then Step(s, Redirect(ManageList))
    else
      var was := s.questions[i];
      var questions := s.questions[..i] + s.questions[i + 1..];
      match DropKey(s.answers, was)
      case None => Step(Store(questions, s.answers), ServerError)
      case Some(kept) =>
        var next := if questions != [] then Min(i, |questions| - 1) else 0;
        Step(Store(questions, kept), Redirect(EditAt(next)))
  }

  // ---------------------------------------------------------------------
  // Status views: get_questions_sidebar_data, manage_questions

  /** The sidebar label: the question itself up to 50 characters, otherwise
      its first 50 characters and "...". */
  function Preview(q: string): (p: string)
    ensures |p| <= 53
    ensures |q| <= 50 ==> p == q
    ensures |q| > 50 ==> |p| == 53 && p[..50] == q[..50] && p[50..] == "..."
  {
    if |q| > 50 then q[..50] + "..." else q
  }

  /** The number of positions whose text is a key of `answers`; duplicate
      texts are counted once per position. */
  function CountAnswered(questions: seq<string>, answers: map<string, string>): (c: nat)
    ensures c <= |questions|
  {
    if questions == [] then 0
    else
      var n := |questions| - 1;
      CountAnswered(questions[..n], answers) + (if questions[n] in answers then 1 else 0)
  }

  datatype SidebarItem = SidebarItem(index: nat, question: string, preview: string, answered: bool)

  datatype Sidebar = Sidebar(items: seq<SidebarItem>, current: int, answeredCount: nat, total: nat)

  /** `get_questions_sidebar_data` without the percentage: one item per
      position, answered by key membership, and the answered count. */
  method SidebarData(s: Store, current: int) returns (sb: Sidebar)
    ensures sb.current == current
    ensures sb.total == |s.questions| == |sb.items|
    ensures forall k :: 0 <= k < |sb.items| ==>
      sb.items[k] == SidebarItem(k, s.questions[k], Preview(s.questions[k]), HasAnswer(s.answers, s.questions[k]))
    ensures sb.answeredCount == CountAnswered(s.questions, LoadAnswers(s.answers))
    ensures sb.answeredCount <= sb.total
  {
    var questions := s.questions;
    var answers := LoadAnswers(s.answers);
    var items: seq<SidebarItem> := [];
    var count: nat := 0;
    for k := 0 to |questions|
      invariant |items| == k
      invariant forall j :: 0 <= j < k ==>
        items[j] == SidebarItem(j, questions[j], Preview(questions[j]), questions[j] in answers)
      invariant count == CountAnswered(questions[..k], answers)
    {
      var q := questions[k];
      var answered := q in answers;
      CountStep(questions, k, answers);
      if answered {
        count := count + 1;
      }
      items := items + [SidebarItem(k, q, Preview(q), answered)];
    }
    assert questions[..|questions|] == questions;
    sb := Sidebar(items, current, count, |questions|);
  }

  /** Counting one more position adds one exactly when it is answered. */
  lemma CountStep(questions: seq<string>, k: int, answers: map<string, string>)
    requires 0 <= k < |questions|
    ensures CountAnswered(questions[..k + 1], answers)
            == CountAnswered(questions[..k], answers) + (if questions[k] in answers then 1 else 0)
  {
    assert questions[..k + 1][..k] == questions[..k];
  }

  datatype ManageItem = ManageItem(index: nat, question: string, answered: bool)

  /** `manage_questions`: one item per position, answered by key
      membership. */
  function ManageItems(s: Store): (items: seq<ManageItem>)
    ensures |items| == |s.questions|
    ensures forall k :: 0 <= k < |items| ==>
      && items[k].index == k
      && items[k].question == s.questions[k]
      && (items[k].answered <==> HasAnswer(s.answers, s.questions[k]))
  {
    var answers := LoadAnswers(s.answers);
    seq(|s.questions|, k requires 0 <= k < |s.questions| =>
      ManageItem(k, s.questions[k], s.questions[k] in answers))
  }

  // ---------------------------------------------------------------------
  // Properties across handlers

  /** With a non-empty answer for the old text, `update_question` leaves the
      upserted file filtered for the old text, or, when that filter raises,
      the upserted file itself. */
  lemma UpdateQuestionMigrates(s: Store, i: int, text: string)
    requires InRange(s, i)
    requires GetAnswer(s.answers, s.questions[i]) != []
    ensures var moved := Upsert(s.answers, Trim(text), GetAnswer(s.answers, s.questions[i]));
            var r := UpdateQuestion(s, i, text);
            && (r.reply.Redirect? <==> DropKey(moved, s.questions[i]).Some?)
            && r.after.answers == match DropKey(moved, s.questions[i])
                                  case Some(kept) => kept
                                  case None => moved
  {
  }

  /** Renaming a question with a non-empty answer to a different text moves
      the (trimmed) answer to the new text and, once the filter succeeds,
      leaves no record for the old text. Every other entry is kept when
      every reader got through the file, and all are lost when the upsert
      reset it. */
  lemma RenameMigratesAnswer(s: Store, i: int, text: string)
    requires InRange(s, i)
    requires GetAnswer(s.answers, s.questions[i]) != []
    requires Trim(text) != s.questions[i]
    ensures var was := s.questions[i];
            var a := GetAnswer(s.answers, was);
            var r := UpdateQuestion(s, i, text);
            var after := r.after.answers;
            && (WellFormed(s.answers) || !Indexable(s.answers) ==>
                  && r.reply == Redirect(EditAt(i))
                  && LoadAnswers(after)
                     == ((if WellFormed(s.answers) then LoadAnswers(s.answers) else map[]) - {was})[Trim(text) := Trim(a)]
                  && GetAnswer(after, Trim(text)) == Trim(a))
            && (r.reply.Redirect? ==>
                  && !HasAnswer(after, was)
                  && forall x :: x in after ==> Lead(x) != Some(was))
  {
    var was := s.questions[i];
    var r := UpdateQuestion(s, i, text);
    UpdateQuestionMigrates(s, i, text);
    if WellFormed(s.answers) || !Indexable(s.answers) {
      MoveAnswer(s.answers, was, Trim(text), GetAnswer(s.answers, was));
    }
    if r.reply.Redirect? {
      NoLeadNoAnswer(r.after.answers, was);
    }
  }

  /** The migration on the answer file alone: upsert under the new text,
      then filter out the old one. */
  lemma MoveAnswer(file: seq<Line>, was: string, now: string, a: string)
    requires now != was
    requires WellFormed(file) || !Indexable(file)
    ensures var moved := Upsert(file, now, a);
            && DropKey(moved, was).Some?
            && LoadAnswers(DropKey(moved, was).value)
               == ((if WellFormed(file) then LoadAnswers(file) else map[]) - {was})[now := Trim(a)]
  {
    var moved := Upsert(file, now, a);
    var m := if WellFormed(file) then LoadAnswers(file) else map[];
    UpsertAnswers(file, now, a);
    UpsertWellFormed(file, now, a);
    DropKeyAnswers(moved, was);
    UpdateThenRemove(m, now, Trim(a), was);
  }

  lemma UpdateThenRemove(m: map<string, string>, k: string, v: string, gone: string)
    requires k != gone
    ensures m[k := v] - {gone} == (m - {gone})[k := v]
  {
  }

  /** Renaming a question with a non-empty answer to its own text deletes
      the answer: the upsert is undone by the filter for the old text. */
  lemma RenameToSameTextDropsAnswer(s: Store, i: int, text: string)
    requires InRange(s, i)
    requires GetAnswer(s.answers, s.questions[i]) != []
    requires Trim(text) == s.questions[i]
    ensures UpdateQuestion(s, i, text).after.questions == s.questions
    ensures var r := UpdateQuestion(s, i, text);
            r.reply.Redirect? ==>
              && !HasAnswer(r.after.answers, s.questions[i])
              && forall x :: x in r.after.answers ==> Lead(x) != Some(s.questions[i])
  {
    var was := s.questions[i];
    var r := UpdateQuestion(s, i, text);
    UpdateQuestionMigrates(s, i, text);
    if r.reply.Redirect? {
      NoLeadNoAnswer(r.after.answers, was);
    }
    assert r.after.questions == s.questions[i := was] == s.questions;
  }

  /** The migration tests the answer for truthiness: when the stored answer
      is empty or missing, the answer file is left as it was, so an empty
      answer stays behind under the old text. */
  lemma RenameUnansweredKeepsFile(s: Store, i: int, text: string)
    requires InRange(s, i)
    requires GetAnswer(s.answers, s.questions[i]) == []
    ensures UpdateQuestion(s, i, text).after.answers == s.answers
    ensures HasAnswer(s.answers, s.questions[i]) ==>
              HasAnswer(UpdateQuestion(s, i, text).after.answers, s.questions[i])
  {
  }

  /** Renaming to a blank text is not rejected: the empty question is
      stored, and the saved list then loses it on reload. */
  lemma RenameToBlankVanishesOnReload(s: Store, i: int, text: string)
    requires InRange(s, i)
    requires AllSpace(text)
    requires forall q :: q in s.questions ==> NoBreak(q)
    ensures var after := UpdateQuestion(s, i, text).after.questions;
            && after[i] == []
            && |LoadQuestions(SaveQuestions(after))| < |after|
  {
    var after := UpdateQuestion(s, i, text).after.questions;
    TrimEmpty(text);
    assert forall q :: q in after ==> NoBreak(q) by {
      forall q | q in after ensures NoBreak(q) {
        var j :| 0 <= j < |after| && after[j] == q;
        if j != i {
          assert s.questions[j] in s.questions;
        }
      }
    }
    LoadSaved(after);
    CleanDropsBlank(after, i);
  }

  /** Deleting a question leaves no record led by its text once the filter
      succeeds, and removes its entry and nothing else from the loaded
      answers when every reader gets through the answer file. */
  lemma DeleteCascade(s: Store, i: int)
    requires InRange(s, i)
    ensures var r := DeleteQuestion(s, i);
            var after := r.after.answers;
            && (r.reply.Redirect? ==>
                  && GetAnswer(after, s.questions[i]) == []
                  && forall x :: x in after ==> Lead(x) != Some(s.questions[i]))
            && (WellFormed(s.answers) ==>
                  && r.reply.Redirect?
                  && LoadAnswers(after) == LoadAnswers(s.answers) - {s.questions[i]})
  {
    var r := DeleteQuestion(s, i);
    if WellFormed(s.answers) {
      DropKeyAnswers(s.answers, s.questions[i]);
    }
    if r.reply.Redirect? {
      NoLeadNoAnswer(r.after.answers, s.questions[i]);
    }
  }

  /** The filter reads the first message with `.get`: a record whose first
      message lacks `content` stops the loaders, yet survives a delete. */
  lemma DeleteKeepsKeylessRecord()
    ensures var keyless := Record(Some([Message(None), Message(Some("x"))]));
            var s := Store(["a"], [keyless]);
            && !Loadable(s.answers)
            && DeleteQuestion(s, 0) == Step(Store([], [keyless]), Redirect(EditAt(0)))
  {
    var keyless := Record(Some([Message(None), Message(Some("x"))]));
    assert LoadRead(keyless) == Fail;
    assert Lead(keyless) == None;
    assert !FilterFails(keyless);
    assert Filterable([keyless]);
    assert Records([keyless]) == [keyless] by {
      assert [keyless][..0] == [];
    }
    assert Without([keyless], "a") == [keyless] by {
      assert [keyless][..0] == [];
    }
    assert DropKey([keyless], "a") == Some([keyless]);
    var s := Store(["a"], [keyless]);
    assert s.questions[..0] + s.questions[1..] == [];
  }

  /** A record with an empty `messages` list is skipped by the loaders, yet
      makes a delete fail after the list was already changed. */
  lemma DeleteFailsOnEmptyMessages()
    ensures var s := Store(["a"], [Record(Some([]))]);
            && Loadable(s.answers)
            && LoadAnswers(s.answers) == map[]
            && DeleteQuestion(s, 0) == Step(Store([], s.answers), ServerError)
  {
    var s := Store(["a"], [Record(Some([]))]);
    assert Readable(s.answers) == s.answers;
    assert AnswerMap(s.answers) == map[] by {
      assert s.answers[..0] == [];
    }
  }

  /** The sidebar, the manage view and `has_answer` call a question answered
      when its text is a key; the editor only when the answer is non-empty.
      They disagree exactly on a stored empty answer. */
  lemma AnsweredNotions(s: Store, i: int)
    requires InRange(s, i)
    ensures EditPage(s, i).Editing?
    ensures EditPage(s, i).answered ==> ManageItems(s)[i].answered
    ensures ManageItems(s)[i].answered != EditPage(s, i).answered
            <==> (HasAnswer(s.answers, s.questions[i]) && LoadAnswers(s.answers)[s.questions[i]] == [])
  {
  }

  /** A stored empty answer: marked answered in the list views, shown as
      unanswered in the editor, and not carried over by a rename. */
  lemma EmptyAnswerExample()
    ensures var s := Store(["q"], [Pair("q", "")]);
            && ManageItems(s)[0].answered
            && !EditPage(s, 0).answered
            && UpdateQuestion(s, 0, "r").after == Store(["r"], [Pair("q", "")])
  {
    var s := Store(["q"], [Pair("q", "")]);
    assert Readable(s.answers) == s.answers;
    assert AnswerMap(s.answers) == map["q" := ""] by {
      assert s.answers[..0] == [];
    }
  }

  /** All positions are answered exactly when the count equals the total,
      and none exactly when it is zero. */
  lemma {:induction false} CountAnsweredExtremes(questions: seq<string>, answers: map<string, string>)
    ensures CountAnswered(questions, answers) == |questions|
            <==> forall k :: 0 <= k < |questions| ==> questions[k] in answers
    ensures CountAnswered(questions, answers) == 0
            <==> forall k :: 0 <= k < |questions| ==> questions[k] !in answers
    decreases |questions|
  {
    if questions != [] {
      var n := |questions| - 1;
      CountAnsweredExtremes(questions[..n], answers);
      assert forall k :: 0 <= k < n ==> questions[..n][k] == questions[k];
    }
  }

  /** The positions whose text is answered. */
  function AnsweredPositions(questions: seq<string>, answers: map<string, string>): set<int>
  {
    set k | 0 <= k < |questions| && questions[k] in answers
  }

  /** The answered count is the number of answered positions, so a text
      listed twice is counted twice. */
  lemma {:induction false} CountIsAnsweredPositions(questions: seq<string>, answers: map<string, string>)
    ensures CountAnswered(questions, answers) == |AnsweredPositions(questions, answers)|
    decreases |questions|
  {
    if questions != [] {
      var n := |questions| - 1;
      CountIsAnsweredPositions(questions[..n], answers);
      var before := AnsweredPositions(questions[..n], answers);
      var all := AnsweredPositions(questions, answers);
      assert before == set k | 0 <= k < n && questions[k] in answers;
      if questions[n] in answers {
        assert all == before + {n};
      } else {
        assert all == before;
      }
    }
  }
}

=== FILE: text.dfy ===
/** Character classes and whitespace trimming, as Python's `str.isspace`,
    `str.strip` and `str.splitlines` define them. Strings are `seq<char>`
    over Unicode scalar values. */
module Text {

  /** The characters for which Python's `str.isspace` holds. */
  predicate IsSpace(c: char) {
    || c == ' '
    || ('\t' <= c <= '\r')
    || ('\U{1C}' <= c <= '\U{1F}')
    || c == '\U{85}'
    || c == '\U{A0}'
    || c == '\U{1680}'
    || ('\U{2000}' <= c <= '\U{200A}')
    || c == '\U{2028}'
    || c == '\U{2029}'
    || c == '\U{202F}'
    || c == '\U{205F}'
    || c == '\U{3000}'
  }

  /** The line boundaries recognised by Python's `str.splitlines`
      (the pair "\r\n" is handled where lines are split). */
  predicate IsLineBreak(c: char) {
    || c == '\n'
    || c == '\r'
    || c == '\U{0B}'
    || c == '\U{0C}'
    || ('\U{1C}' <= c <= '\U{1E}')
    || c == '\U{85}'
    || c == '\U{2028}'
    || c == '\U{2029}'
  }

  predicate AllSpace(s: string) {
    forall i :: 0 <= i < |s| ==> IsSpace(s[i])
  }

  /** A single line of text: no line boundary anywhere in it. */
  predicate NoBreak(s: string) {
    forall i :: 0 <= i < |s| ==> !IsLineBreak(s[i])
  }

  /** Neither end is whitespace: what `str.strip` returns. */
  predicate Trimmed(s: string) {
    |s| == 0 || (!IsSpace(s[0]) && !IsSpace(s[|s| - 1]))
  }

  /** Python's `s.strip()`: whitespace is removed from the start, then from
      the end, and nothing else changes. */
  function Trim(s: string): (r: string)
    ensures Trimmed(r)
    ensures Trimmed(s) ==> r == s
    ensures |r| <= |s|
    decreases |s|
  {
    if |s| > 0 && IsSpace(s[0]) then Trim(s[1..])
    else if |s| > 0 && IsSpace(s[|s| - 1]) then Trim(s[..|s| - 1])
    else s
  }

  /** Trimming is idempotent. */
  lemma TrimIdempotent(s: string)
    ensures Trim(Trim(s)) == Trim(s)
  {
  }

  /** Trimming yields the empty string exactly for whitespace-only input. */
  lemma {:induction false} TrimEmpty(s: string)
    ensures Trim(s) == [] <==> AllSpace(s)
    decreases |s|
  {
    if |s| > 0 && IsSpace(s[0]) {
      TrimEmpty(s[1..]);
      assert AllSpace(s) <==> AllSpace(s[1..]) by {
        if AllSpace(s[1..]) {
          forall i | 0 <= i < |s| ensures IsSpace(s[i]) {
            if i > 0 { assert s[i] == s[1..][i - 1]; }
          }
        }
      }
    } else if |s| > 0 && IsSpace(s[|s| - 1]) {
      TrimEmpty(s[..|s| - 1]);
      assert !IsSpace(s[0]);
    } else if |s| > 0 {
      assert !IsSpace(s[0]);
    }
  }

  /** Trimming keeps a single line a single line. */
  lemma {:induction false} TrimKeepsNoBreak(s: string)
    ensures NoBreak(s) ==> NoBreak(Trim(s))
    decreases |s|
  {
    if NoBreak(s) {
      if |s| > 0 && IsSpace(s[0]) {
        TrimKeepsNoBreak(s[1..]);
      } else if |s| > 0 && IsSpace(s[|s| - 1]) {
        TrimKeepsNoBreak(s[..|s| - 1]);
      }
    }
  }
}
